=== FILE: README.md ===
# sabacan core, modelled in Dafny

sabacan is a command-line client for two text-processing servers, PlantUML
(diagrams) and RedPen (prose linting). This project models the parts of the
client that decide things without touching the network or the file system:

- **PlantUML client** (`plantuml.dfy`, module `PlantUml`):
  - the PlantUML Text Encoding substitution, which maps the base64 alphabet
    onto PlantUML's URL-safe alphabet and back;
  - the window-bits choice when decoding;
  - the format-to-URL-segment table and the GET/POST request URLs;
  - the format-to-extension rule and the list of output formats;
  - the pipe-mode reader, which cuts standard input at `@end` lines;
  - the batch loop that runs a step over every matched file and combines
    the results.
- **RedPen client** (`redpen.dfy`, module `RedPen`):
  - the file-suffix-to-parser lookup and the parser priority;
  - the validation form, with its optional `config` field;
  - the bracket wrapping of JSON results;
  - the `plain` error count and the error-limit check.
- **Configuration helpers** (`utils.dfy`, module `Utils`):
  - the layered lookup of the server URL and timeout in the environment;
  - the argparse action that stores an option in the environment;
  - the help text of options a client accepts but does not support.

Two supporting modules hold the rest:

- `text.dfy` (module `Text`) holds the Python `str` built-ins the client
  relies on: `find`, `rfind`, `startswith`, `join`, `splitlines`, `upper`,
  `int()` and `str()`.
- `wrappers.dfy` holds `Option` and `Result`.

zlib, base64 and UTF-8 decoding are foreign code. They enter the model as
the function-valued fields of `PlantUml.Codecs`, and nothing is assumed
about them. UTF-8 encoding of the diagram code is not a field: `EncodeCode`
and `CompileRequest` take the encoded bytes as their input. For the same
reason, the JSON, XML and `plain2` error counters enter as the fields of
`RedPen.Counters`.

Python exceptions are modelled as values:

- `None` stands for the `KeyError` of a character outside the table.
- `DecodeError` names each way `decode_code` can fail.
- `StoreAsWritten` returns `None` for the `TypeError` that `os.environ`
  raises.
- The JSON and XML counters return `None` when `json.loads`, ElementTree
  or the lookup into their result raises on a malformed reply.
  `NumberOfErrors` reports that as `Raised`, apart from `NoBranch` for a
  format that matches no branch. `ExceedsLimit` then gives `None`, since
  `main` has no handler for it.

Where imperative code updates state, the model is imperative too:

- `PlantUml.ReadUmlCode` is a loop over a `LineStream` object that it
  consumes.
- `PlantUml.ForEachFile` is a pair of nested loops.
- `Utils.Environment.SetEnv` updates a map field in place. It is the
  corrected action: an integer is stored as its text, where the written
  action raises (`Utils.StoreAsWritten`).

Each of these methods is proved against a specification function, and
lemmas are proved about those functions.

`get_number_of_errors` counts every line `splitlines` yields, empty ones
included (sabacan/redpen.py:144), and so does `RedPen.NumberOfErrors`.

Two consequences of the code are kept as they are:

- Pipe mode passes the lines it reads to `join` with their terminators
  still attached, so the joined code has doubled line breaks.
  `ReadUmlCode` treats lines as opaque strings and keeps this.
- Base64 padding '=' becomes '?' in the PlantUML alphabet. `GetUrl` puts
  the token into the GET URL unescaped, as the code does, so a padded
  token opens the URL's query string and the path segment is cut there.

## Model

| member | source | states |
|---|---|---|
| PlantUml.AlphabetsDistinct | sabacan/plantuml.py:28-29 | both 65-character alphabets have equal length and no repeated character |
| PlantUml.ZipMapLookup | sabacan/plantuml.py:30-31 | `dict(zip(keys, vals))` of distinct keys maps the i-th key to the i-th value and has exactly the keys as domain |
| PlantUml.TablesInverse | sabacan/plantuml.py:28-31 | the encode table's domain is the base64 alphabet, the decode table's is the PlantUML alphabet, and each table undoes the other on its domain |
| PlantUml.Translate | sabacan/plantuml.py:444 | a character-by-character table lookup succeeds exactly when every character is in the table, and the output has the same length with each character replaced by its image |
| PlantUml.Substitute | sabacan/plantuml.py:444 | substitution succeeds exactly on text over the base64 alphabet, keeps the length, and yields only PlantUML-alphabet characters |
| PlantUml.Unsubstitute | sabacan/plantuml.py:455 | reverse substitution fails (KeyError) exactly when some character is outside the PlantUML alphabet, and otherwise yields base64-alphabet text of the same length |
| PlantUml.SubstitutionRoundTrip | sabacan/plantuml.py:444-455 | reverse-substituting a substituted base64 text gives the text back |
| PlantUml.SubstitutionRoundTripReverse | sabacan/plantuml.py:444-455 | substituting a reverse-substituted token gives the token back |
| PlantUml.StripZlibFrame | sabacan/plantuml.py:442 | `[2:-4]` drops the 2-byte zlib header and the 4-byte checksum, with Python's clamping for short input |
| PlantUml.EncodeCode | sabacan/plantuml.py:431-444 | encoding succeeds exactly when base64 produced only base64-alphabet characters, keeps the length, stays in the PlantUML alphabet, and reverse substitution recovers the base64 text |
| PlantUml.WBits | sabacan/plantuml.py:457 | the window bits are 15 exactly when the decoded data starts with 0x78 0x9C, and -15 otherwise |
| PlantUml.Inflate | sabacan/plantuml.py:456-459 | the steps after the substitution never report a bad token; they fail as malformed base64 exactly when base64 decoding fails, and as corrupt data exactly when decompression fails after it; they succeed exactly when decompression with the window bits of the decoded bytes and then UTF-8 decoding succeed, and the result is that UTF-8 text |
| PlantUml.DecodeCode | sabacan/plantuml.py:447-459 | decoding fails with a bad token exactly when the token has a character outside the PlantUML alphabet |
| PlantUml.EncodeThenDecode | sabacan/plantuml.py:431-459 | decoding an encoded token gives base64 decoding exactly the text base64 encoding produced |
| PlantUml.FormatListMissingComma | sabacan/plantuml.py:33-43 | the format list as written has 17 entries, with 'latex:nopreamblebase64' and without 'latex:nopreamble' or 'base64' |
| PlantUml.FormatListCorrected | sabacan/plantuml.py:33-43 | with the comma restored, the list has 18 entries, includes both formats, and keeps every other written entry |
| PlantUml.UrlPattern | sabacan/plantuml.py:44-47 | 'eps:text' maps to 'epstext', 'utxt' to 'txt', every other format to itself |
| PlantUml.TokenIsLastSegment | sabacan/plantuml.py:483-491 | the GET URL is the POST URL `base/segment/` followed by the token, and a token free of '/' is its last path segment |
| PlantUml.SlashOutsideToChars | sabacan/plantuml.py:29 | '/' is not in the PlantUML alphabet, so an encoded token never contains it |
| PlantUml.CompileRequest | sabacan/plantuml.py:483-492 | POST sends the UTF-8 code to `base/segment/` with the plain-text content type; GET succeeds exactly when encoding does, has no body and no content type, and its URL is the POST URL followed by the encoded token |
| PlantUml.FormatToExt | sabacan/plantuml.py:522-537 | 'txt' gives '.atxt' and 'braille' gives '.braille.png'; otherwise the result is '.' and then the format's text before its first ':', or the whole format; it always starts with '.' |
| PlantUml.ListedFormatsHaveExtensions | sabacan/plantuml.py:522-537 | every format of the list as written, and of the corrected list, gives an extension with at least one character after the dot |
| PlantUml.ChunkLength | sabacan/plantuml.py:611-617 | one read consumes lines through the first one starting with '@end', or all lines; it consumes at least one line when any remain |
| PlantUml.LineStream.Next | sabacan/plantuml.py:613 | the stream yields its first line and drops it, or reports exhaustion |
| PlantUml.ReadUmlCode | sabacan/plantuml.py:611-617 | `_read_uml_code` returns the consumed lines joined with '\n' and leaves exactly the rest in the stream |
| PlantUml.ReadEmptyOnlyAtEnd | sabacan/plantuml.py:611-625 | for stream lines, which are never empty, a read gives "" exactly when the stream is exhausted, which is what ends pipe mode |
| PlantUml.ChunksPartition | sabacan/plantuml.py:611-625 | the successive reads of pipe mode are non-empty, concatenate to the input, and all but the last end at an '@end' line |
| PlantUml.FileOutcomesVerdict | sabacan/plantuml.py:594-603 | the outcomes of one pattern's files are all successes exactly when every regular file among its matches succeeded |
| PlantUml.AllOutcomesVerdict | sabacan/plantuml.py:589-609 | the outcomes of all patterns are all successes exactly when every regular file of every pattern succeeded |
| PlantUml.ProcessMatches | sabacan/plantuml.py:592-603 | one pattern's loop appends the outcome of every regular file among its matches in order, notes whether any was found, and keeps the verdict equal to "every outcome so far succeeded" |
| PlantUml.ForEachFile | sabacan/plantuml.py:589-609 | `proc` runs on every regular file in order, also after a failure; patterns that match no file are reported; the result is true exactly when every call returned true and none raised; with `do_exit` the exit status is 0 for a true result and 1 otherwise |
| Text.Find | sabacan/plantuml.py:534 | `find` gives the first index of the character, or -1 exactly when the character is absent |
| Text.SplitLines | sabacan/redpen.py:144 | `splitlines` gives lines that contain no line boundary |
| Text.SplitLinesCount | sabacan/redpen.py:144 | `splitlines` gives one line per terminator (`\r\n` counting once), plus one for unterminated text at the end |
| Text.SplitLinesOfJoin | sabacan/redpen.py:144 | splitting '\n'-joined lines gives them back when none holds a boundary and the last is not empty |
| Text.ParseInt | sabacan/utils.py:42-47 | `int()` succeeds exactly on an optional sign followed by at least one decimal digit |
| Text.ParseIntOfIntToString | sabacan/utils.py:42-47 | `int(str(n)) == n` for every integer |
| Text.DigitsValueLeadingZero | sabacan/utils.py:44 | a leading zero does not change the value of a digit string |
| Text.ParseIntOfSignedDigits | sabacan/utils.py:44 | `int()` gives the same value with a '+' sign or a leading zero, and the negated value with '-', so with `int(str(n)) == n` the value of every literal is fixed |
| RedPen.Suffix | sabacan/redpen.py:127 | a suffix is empty or a '.' followed by at least one character |
| RedPen.SuffixCharacterized | sabacan/redpen.py:127-129 | a file name has a suffix exactly when it does not end with '.' and has a dot after its first character; the suffix is the name's tail from its last dot and has no further dot |
| RedPen.FindParser | sabacan/redpen.py:130-133 | the loop gives the parser of the first entry listing the extension, and `None` exactly when no entry lists it |
| RedPen.ParserFromFilename | sabacan/redpen.py:126-133 | a parser is found exactly when the name has a suffix whose text after the dot is listed, and the parser is one whose entry lists it |
| RedPen.ExtensionsUnambiguous | sabacan/redpen.py:22-31 | no extension is listed for two parsers |
| RedPen.ListedExtensionSelectsParser | sabacan/redpen.py:126-133 | every `stem.ext` with a listed extension selects the parser that lists it (e.g. 'md' gives 'markdown', 'rst' gives 'rest') |
| RedPen.UndottedNameHasNoParser | sabacan/redpen.py:127-129 | a name with no dot, or whose only dot leads it (`.bashrc`), selects no parser |
| RedPen.DocumentParser | sabacan/redpen.py:208-215 | an explicit `--format` wins, then the parser the input file selects, then 'plain' |
| RedPen.DocumentParserIsKnown | sabacan/redpen.py:208-215 | with `--format` absent or one of its choices, the parser chosen is always a known parser name, never `None` |
| RedPen.ValidateRequest | sabacan/redpen.py:170-181 | the form holds document, documentParser, lang and format in that order, and `config` exactly when a configuration is given; the URL is `base/rest/document/validate` |
| RedPen.WrapResult | sabacan/redpen.py:185-188 | a format starting with 'json' gives the reply inside '[' and ']'; any other format gives the reply unchanged |
| RedPen.WrappedResultFormats | sabacan/redpen.py:185-188 | among the result formats, exactly 'json' and 'json2' are wrapped |
| RedPen.NumberOfErrors | sabacan/redpen.py:136-151 | a format matching no branch gives `None` (not 0), exactly when it is outside the five result formats; the count raises exactly when the JSON or XML parser fails on the reply; the `plain` count is the number of line terminators plus one for an unterminated last line |
| RedPen.PlainCountOfLines | sabacan/redpen.py:143-144 | a `plain` result of n report lines counts n errors |
| RedPen.ExceedsLimit | sabacan/redpen.py:272-275 | the run fails exactly when the error count is above the limit, so a count equal to the limit passes; when counting raised there is no verdict |
| Utils.ServiceVar | sabacan/utils.py:24-39 | the per-service variable is 'SABACAN_', the upper-cased service name, then the suffix; the upper-casing leaves no lower-case ASCII letter and changes only those |
| Utils.ServiceVarIsNotShared | sabacan/utils.py:24-41 | no per-service variable coincides with the shared SABACAN_URL or SABACAN_TIMEOUT |
| Utils.GetServerUrl | sabacan/utils.py:14-27 | the per-service URL variable if set (even to ""), else SABACAN_URL if set, else the default |
| Utils.ServerUrlComesFromALayer | sabacan/utils.py:14-27 | the URL is always an environment value or the default |
| Utils.SharedUrlCannotOverride | sabacan/utils.py:24-27 | setting SABACAN_URL does not change the URL of a service that has its own variable |
| Utils.GetTimeout | sabacan/utils.py:29-47 | the raw value is the per-service variable, else SABACAN_TIMEOUT, else the default; the result is `int()` of the chosen text, `None` when it does not parse, and `None` when nothing is set and there is no default |
| Utils.BadServiceTimeoutShadows | sabacan/utils.py:39-47 | an unparsable per-service timeout gives `None` even when SABACAN_TIMEOUT holds a valid one |
| Utils.StoreAsWritten | sabacan/utils.py:11-12 | storing a text value sets `dest` to it and adds no other key; storing an integer raises |
| Utils.TimeoutOptionRaisesAsWritten | sabacan/utils.py:12 | as written, storing the integer that `--timeout` produces raises |
| Utils.EnvText | sabacan/utils.py:12 | text values are stored as they are, and an integer is stored as text that `int()` reads back as the integer |
| Utils.Store | sabacan/utils.py:12 | `dest` is set to the value's text and every other variable is unchanged |
| Utils.StoreAgreesOnText | sabacan/utils.py:12 | on text values the corrected store and the written one agree |
| Utils.TimeoutOptionReachesLookup | sabacan/utils.py:29-47 | with the corrected store, `--timeout N` makes `get_timeout` give N for every service without its own timeout variable |
| Utils.UrlOptionReachesLookup | sabacan/utils.py:14-27 | `--url U` makes `get_server_url` give U for every service without its own URL variable |
| Utils.Environment.SetEnv | sabacan/utils.py:11-12 | the environment after the call is the old one with `dest` set to the value's text (corrected: an integer is stored as its text; as written it raises, see `StoreAsWritten`) |
| Utils.NotSupportedHelp | sabacan/utils.py:62 | the help is 'NOT SUPPORTED' when absent, and otherwise the given help followed by ' (NOT SUPPORTED)' |
| Utils.NotSupportedAction | sabacan/utils.py:58-65 | the action keeps its nargs and gets the rewritten help |
| Utils.NotSupportedFlagAction | sabacan/utils.py:77-83 | the flag action always has nargs 0 and the same rewritten help |

## Left out

- zlib compression and decompression, base64 and UTF-8 decoding are
  foreign library code. They are uninterpreted fields of `PlantUml.Codecs`, so no
  full `decode_code(encode_code(s)) == s` round trip is claimed; only the
  substitution layer is shown transparent. The compression level is part
  of the supplied `compress`.
- UTF-8 encoding of the diagram code (`uml_code.encode('utf-8')` in
  `encode_code` and in the POST branch of `compile_code`) is not modelled:
  `EncodeCode` and `CompileRequest` take the encoded bytes as input.
- HTTP is not modelled: `urlopen`, the `HTTPError`/`CompileError`
  handling in `compile_code`, `get_language`, `get_version`,
  `get_langauge`, and the network call in `validate`. `CompileRequest`
  stops at the request. The headers `make_headers` builds are not
  modelled; only the Content-Type the POST branch adds is.
- `make_headers` and `get_connection_info` are called but not defined in
  `sabacan/utils.py`; they are not part of this model.
- File system and process access are not modelled:
  - glob, `expanduser` and `expandvars` in `_for_each_file`, whose matches
    are given as data;
  - the file reads and writes in `_generate` and `_check_syntax`;
  - configuration-file search;
  - stdin/stdout and `sys.exit` in `_run_with_pipe`. Its loop is covered
    only by `ChunksPartition` and `ReadEmptyOnlyAtEnd`;
  - the `sys.exit` call of `_for_each_file`. `ForEachFile` returns the
    status that call would be given instead of ending the process.
- Logging calls, including the warning that `NotSupportedAction` logs
  when used, are not modelled.
- The JSON, JSON2, XML and `plain2` branches of `get_number_of_errors` are
  not modelled. They rely on `json`, ElementTree and `re`, and are
  uninterpreted fields of `RedPen.Counters`; only whether the JSON and XML
  parsers raise is kept. The `lang` lookup in `redpen.main` is also left
  out.
- `urlencode` of the validation form is not modelled. `ValidateRequest`
  gives the ordered field list it would encode.
- argparse parser construction (`make_parser`, `_FlagAction`,
  `_LanguageAction`, `sabacan/__init__.py`) is not modelled. `ExceedsLimit`
  requires a result format among the `--result-format` choices, which
  argparse enforces.
- Text.ParseInt: does not accept the surrounding whitespace, underscores
  or non-ASCII digits that Python's `int()` also accepts.
- Text.Upper: upper-cases ASCII letters only; Python's `str.upper` also
  maps other Unicode letters.
- RedPen.FileName: strips trailing slashes and takes the text after the
  last '/'. It does not model the rest of pathlib's normalisation (`.`
  components, Windows separators).

## Findings

| source | as written | input that shows it | evidently intended | confidence | as-written member | corrected member |
|---|---|---|---|---|---|---|
| sabacan/plantuml.py:41-42 | no comma after 'latex:nopreamble', so Python concatenates it with 'base64' into one entry | `-t base64` or `-t latex:nopreamble` is rejected by argparse, and `-t latex:nopreamblebase64` is accepted | two separate formats 'latex:nopreamble' and 'base64' (18 entries) | high, not executed | PlantUml.FormatListMissingComma | PlantUml.FormatListCorrected |
| sabacan/__init__.py:33-39 | `--timeout` converts its value with `type=int` and then stores it through `SetEnvAction`, whose `os.environ[dest] = values` (sabacan/utils.py:12) accepts only text | `sabacan --timeout 5 plantuml ...` gives an int to `os.environ`, which raises TypeError | store the text of the number, so that `get_timeout` reads it back | high, not executed | Utils.TimeoutOptionRaisesAsWritten | Utils.TimeoutOptionReachesLookup |

=== FILE: plantuml.dfy ===
/** The pure and loop logic of the PlantUML client (sabacan/plantuml.py):
    the PlantUML Text Encoding alphabet substitution and the codec stages
    around it, the output-format tables, request URLs, output file
    extensions, the pipe-mode line reader and the batch result loop.

    zlib, base64 and UTF-8 are foreign code here: they enter as the
    function-valued fields of `Codecs`, about which nothing is assumed. */
module PlantUml {
  import opened Wrappers
  import opened Text

  type Byte = b: int | 0 <= b < 256

  // ---------------------------------------------------------------------------
  // Alphabets and substitution tables

  const Uppers: string := "ABCDEFGHIJKLMNOPQRSTUVWXYZ"
  const Lowers: string := "abcdefghijklmnopqrstuvwxyz"
  const Digits: string := "0123456789"

  /** The standard base64 alphabet followed by its padding character,
      written as the runs that make up the source's 65-character literal. */
  const FromChars: string := Uppers + Lowers + Digits + "+/="

  /** PlantUML's URL alphabet, position for position the image of `FromChars`. */
  const ToChars: string := Digits + Uppers + Lowers + "-_?"

  /** `dict(zip(keys, vals))`: `zip` stops at the shorter argument and a
      repeated key keeps the value paired with its last occurrence. */
  function ZipMap(keys: string, vals: string): map<char, char>
    decreases |keys|
  {
    var n := if |keys| < |vals| then |keys| else |vals|;
    if n == 0 then map[]
    else ZipMap(keys[..n - 1], vals[..n - 1])[keys[n - 1] := vals[n - 1]]
  }

  const EncodeTable: map<char, char> := ZipMap(FromChars, ToChars)
  const DecodeTable: map<char, char> := ZipMap(ToChars, FromChars)

  predicate Distinct(s: string) {
    forall i, j :: 0 <= i < j < |s| ==> s[i] != s[j]
  }

  /** Position of `c` in `FromChars`, computed from character codes. */
  function FromRank(c: char): int {
    if 'A' <= c <= 'Z' then c as int - 'A' as int
    else if 'a' <= c <= 'z' then c as int - 'a' as int + 26
    else if '0' <= c <= '9' then c as int - '0' as int + 52
    else if c == '+' then 62 else if c == '/' then 63 else if c == '=' then 64
    else -1
  }

  /** Position of `c` in `ToChars`, computed from character codes. */
  function ToRank(c: char): int {
    if '0' <= c <= '9' then c as int - '0' as int
    else if 'A' <= c <= 'Z' then c as int - 'A' as int + 10
    else if 'a' <= c <= 'z' then c as int - 'a' as int + 36
    else if c == '-' then 62 else if c == '_' then 63 else if c == '?' then 64
    else -1
  }

  /** Each run holds consecutive character codes. */
  lemma AlphabetRunsAreConsecutive()
    ensures |Uppers| == |Lowers| == 26 && |Digits| == 10
    ensures forall i :: 0 <= i < 26 ==> Uppers[i] as int == 'A' as int + i
    ensures forall i :: 0 <= i < 26 ==> Lowers[i] as int == 'a' as int + i
    ensures forall i :: 0 <= i < 10 ==> Digits[i] as int == '0' as int + i
  {
  }

  lemma FromCharsRanked()
    ensures |FromChars| == 65
    ensures forall i :: 0 <= i < |FromChars| ==> FromRank(FromChars[i]) == i
  {
    AlphabetRunsAreConsecutive();
    forall i | 0 <= i < 65 ensures FromRank(FromChars[i]) == i {
      if i < 26 { assert FromChars[i] == Uppers[i]; }
      else if i < 52 { assert FromChars[i] == Lowers[i - 26]; }
      else if i < 62 { assert FromChars[i] == Digits[i - 52]; }
      else { assert FromChars[i] == "+/="[i - 62]; }
    }
  }

  lemma ToCharsRanked()
    ensures |ToChars| == 65
    ensures forall i :: 0 <= i < |ToChars| ==> ToRank(ToChars[i]) == i
  {
    AlphabetRunsAreConsecutive();
    forall i | 0 <= i < 65 ensures ToRank(ToChars[i]) == i {
      if i < 10 { assert ToChars[i] == Digits[i]; }
      else if i < 36 { assert ToChars[i] == Uppers[i - 10]; }
      else if i < 62 { assert ToChars[i] == Lowers[i - 36]; }
      else { assert ToChars[i] == "-_?"[i - 62]; }
    }
  }

  /** The two alphabets have the same length and no repeated character. */
  lemma AlphabetsDistinct()
    ensures |FromChars| == |ToChars| == 65
    ensures Distinct(FromChars) && Distinct(ToChars)
  {
    FromCharsRanked();
    ToCharsRanked();
  }

  /** Zipping distinct keys gives a map defined exactly on the keys that
      sends each key to the value at the same position. */
  lemma {:induction false} ZipMapLookup(keys: string, vals: string)
    requires |keys| == |vals| && Distinct(keys)
    ensures forall c :: c in ZipMap(keys, vals) <==> c in keys
    ensures forall i :: 0 <= i < |keys| ==> ZipMap(keys, vals)[keys[i]] == vals[i]
  {
    if |keys| > 0 {
      var n := |keys|;
      ZipMapLookup(keys[..n - 1], vals[..n - 1]);
      assert keys == keys[..n - 1] + [keys[n - 1]];
      assert forall i :: 0 <= i < n - 1 ==> keys[..n - 1][i] == keys[i] && vals[..n - 1][i] == vals[i];
    }
  }

  /** `_ENCODE_TABLE` and `_DECODE_TABLE` are mutually inverse bijections
      between the two alphabets. */
  lemma TablesInverse()
    ensures forall c :: c in EncodeTable <==> c in FromChars
    ensures forall c :: c in DecodeTable <==> c in ToChars
    ensures forall c :: c in FromChars ==> EncodeTable[c] in ToChars && DecodeTable[EncodeTable[c]] == c
    ensures forall c :: c in ToChars ==> DecodeTable[c] in FromChars && EncodeTable[DecodeTable[c]] == c
  {
    AlphabetsDistinct();
    ZipMapLookup(FromChars, ToChars);
    ZipMapLookup(ToChars, FromChars);
    forall c | c in FromChars
      ensures EncodeTable[c] in ToChars && DecodeTable[EncodeTable[c]] == c
    {
      var i :| 0 <= i < |FromChars| && FromChars[i] == c;
      assert EncodeTable[c] == ToChars[i];
    }
    forall c | c in ToChars
      ensures DecodeTable[c] in FromChars && EncodeTable[DecodeTable[c]] == c
    {
      var i :| 0 <= i < |ToChars| && ToChars[i] == c;
      assert DecodeTable[c] == FromChars[i];
    }
  }

  /** `''.join(table[c] for c in s)`, with `None` for the `KeyError` raised
      at the first character the table does not map. */
  function Translate(table: map<char, char>, s: string): (r: Option<string>)
    ensures r.Some? <==> forall i :: 0 <= i < |s| ==> s[i] in table
    ensures r.Some? ==> |r.value| == |s| && forall i :: 0 <= i < |s| ==> r.value[i] == table[s[i]]
  {
    if s == [] then Some([])
    else if s[0] !in table then None
    else
      match Translate(table, s[1..])
      case None => None
      case Some(rest) => Some([table[s[0]]] + rest)
  }

  predicate Over(s: string, alphabet: string) {
    forall i :: 0 <= i < |s| ==> s[i] in alphabet
  }

  /** The substitution step of `encode_code`: base64 text to PlantUML text. */
  function Substitute(b64: string): (r: Option<string>)
    ensures r.Some? <==> Over(b64, FromChars)
    ensures r.Some? ==> |r.value| == |b64| && Over(r.value, ToChars)
  {
    TablesInverse();
    Translate(EncodeTable, b64)
  }

  /** The substitution step of `decode_code`: PlantUML text back to base64
      text; a character outside `ToChars` is a `KeyError`. */
  function Unsubstitute(token: string): (r: Option<string>)
    ensures r.None? <==> exists i :: 0 <= i < |token| && token[i] !in ToChars
    ensures r.Some? ==> |r.value| == |token| && Over(r.value, FromChars)
  {
    TablesInverse();
    Translate(DecodeTable, token)
  }

  /** Undoing the substitution restores the base64 text. */
  lemma SubstitutionRoundTrip(b64: string)
    requires Over(b64, FromChars)
    ensures Substitute(b64).Some? && Unsubstitute(Substitute(b64).value) == Some(b64)
  {
    TablesInverse();
    var t := Substitute(b64).value;
    var back := Unsubstitute(t).value;
    assert forall i :: 0 <= i < |b64| ==> back[i] == DecodeTable[EncodeTable[b64[i]]];
    assert back == b64;
  }

  /** And substituting again restores the PlantUML text. */
  lemma SubstitutionRoundTripReverse(token: string)
    requires Over(token, ToChars)
    ensures Unsubstitute(token).Some? && Substitute(Unsubstitute(token).value) == Some(token)
  {
    TablesInverse();
    var b := Unsubstitute(token).value;
    var again := Substitute(b).value;
    assert forall i :: 0 <= i < |token| ==> again[i] == EncodeTable[DecodeTable[token[i]]];
    assert again == token;
  }

  // ---------------------------------------------------------------------------
  // encode_code and decode_code around the substitution

  /** The foreign functions the codec calls: `zlib.compress` at the caller's
      level, `base64.b64encode` (as ASCII text), `base64.b64decode` (`None`
      for malformed input), `zlib.decompress` with a window-bits argument
      (`None` for corrupt data) and UTF-8 decoding (`None` for bad bytes). */
  datatype Codecs = Codecs(
    compress: seq<Byte> -> seq<Byte>,
    b64encode: seq<Byte> -> string,
    b64decode: string -> Option<seq<Byte>>,
    decompress: (seq<Byte>, int) -> Option<seq<Byte>>,
    utf8decode: seq<Byte> -> Option<string>)

  /** `compressed[2:-4]`: drops the 2-byte zlib header and 4-byte checksum,
      with Python's slice clamping for short inputs. */
  function StripZlibFrame(compressed: seq<Byte>): (r: seq<Byte>)
    ensures |r| == if |compressed| >= 6 then |compressed| - 6 else 0
    ensures forall i :: 0 <= i < |r| ==> r[i] == compressed[i + 2]
  {
    var stop := if |compressed| >= 4 then |compressed| - 4 else 0;
    var start := if |compressed| >= 2 then 2 else |compressed|;
    if start < stop then compressed[start..stop] else []
  }

  /** The base64 text `encode_code` feeds to the substitution. */
  function EncodedBase64(utf8: seq<Byte>, codecs: Codecs): string {
    codecs.b64encode(StripZlibFrame(codecs.compress(utf8)))
  }

  /** `encode_code(uml_code, level)` on the UTF-8 bytes of the code. */
  function EncodeCode(utf8: seq<Byte>, codecs: Codecs): (r: Option<string>)
    ensures r.Some? <==> Over(EncodedBase64(utf8, codecs), FromChars)
    ensures r.Some? ==> |r.value| == |EncodedBase64(utf8, codecs)| && Over(r.value, ToChars)
    ensures r.Some? ==> Unsubstitute(r.value) == Some(EncodedBase64(utf8, codecs))
  {
    var b64 := EncodedBase64(utf8, codecs);
    if Over(b64, FromChars) then SubstitutionRoundTrip(b64); Substitute(b64)
    else Substitute(b64)
  }

  /** The window-bits argument: a zlib stream when the data starts with the
      header bytes 0x78 0x9C, raw deflate otherwise. */
  function WBits(compressed: seq<Byte>): (w: int)
    ensures w == 15 || w == -15
    ensures w == 15 <==> |compressed| >= 2 && compressed[0] == 0x78 && compressed[1] == 0x9C
  {
    var head := compressed[..if |compressed| < 2 then |compressed| else 2];
    if head == [0x78, 0x9C] then 15 else -15
  }

  datatype DecodeError = InvalidToken | MalformedBase64 | CorruptData | InvalidUtf8

  /** Steps of `decode_code` after the substitution: base64 decoding,
      decompression with the window bits the header selects, UTF-8 decoding. */
  function Inflate(b64: string, codecs: Codecs): (r: Result<string, DecodeError>)
    ensures r != Failure(InvalidToken)
    ensures r == Failure(MalformedBase64) <==> codecs.b64decode(b64).None?
    ensures r == Failure(CorruptData) <==>
      exists c :: codecs.b64decode(b64) == Some(c) && codecs.decompress(c, WBits(c)).None?
    ensures r.Success? <==>
      exists c, b :: codecs.b64decode(b64) == Some(c) && codecs.decompress(c, WBits(c)) == Some(b) &&
        codecs.utf8decode(b).Some?
    ensures r.Success? ==>
      var c := codecs.b64decode(b64).value;
      codecs.decompress(c, WBits(c)).Some? && Some(r.value) == codecs.utf8decode(codecs.decompress(c, WBits(c)).value)
  {
    match codecs.b64decode(b64)
    case None => Failure(MalformedBase64)
    case Some(compressed) =>
      match codecs.decompress(compressed, WBits(compressed))
      case None => Failure(CorruptData)
      case Some(bytes) =>
        match codecs.utf8decode(bytes)
        case None => Failure(InvalidUtf8)
        case Some(text) => Success(text)
  }

  /** `decode_code(encoded_uml)` */
  function DecodeCode(token: string, codecs: Codecs): (r: Result<string, DecodeError>)
    ensures r == Failure(InvalidToken) <==> exists i :: 0 <= i < |token| && token[i] !in ToChars
    ensures r.Success? ==> Over(token, ToChars)
  {
    match Unsubstitute(token)
    case None => Failure(InvalidToken)
    case Some(b64) => Inflate(b64, codecs)
  }

  /** Decoding a token that `EncodeCode` produced hands base64 decoding
      exactly the text base64 encoding produced: the substitution layer is
      transparent to the round trip. */
  lemma EncodeThenDecode(utf8: seq<Byte>, codecs: Codecs)
    requires EncodeCode(utf8, codecs).Some?
    ensures DecodeCode(EncodeCode(utf8, codecs).value, codecs) == Inflate(EncodedBase64(utf8, codecs), codecs)
  {
  }

  // ---------------------------------------------------------------------------
  // Output formats

  /** `_FORMAT_LIST` as written: with no comma after 'latex:nopreamble',
      Python joins it with 'base64' into one entry. */
  const FormatListAsWritten: seq<string> := [
    "png", "braille",
    "svg", "svg:nornd",
    "eps", "eps:text",
    "pdf", "vdx",
    "xmi", "xmi:argo", "xmi:star",
    "scxml", "html",
    "txt", "utxt",
    "latex", "latex:nopreamble"
    + "base64"
  ]

  /** The format list with the comma restored. */
  const FormatList: seq<string> := [
    "png", "braille",
    "svg", "svg:nornd",
    "eps", "eps:text",
    "pdf", "vdx",
    "xmi", "xmi:argo", "xmi:star",
    "scxml", "html",
    "txt", "utxt",
    "latex", "latex:nopreamble",
    "base64"
  ]

  /** As written, `-t` accepts neither 'latex:nopreamble' nor 'base64' but
      does accept the merged 'latex:nopreamblebase64'. */
  lemma FormatListMissingComma()
    ensures |FormatListAsWritten| == 17
    ensures "latex:nopreamblebase64" in FormatListAsWritten
    ensures "latex:nopreamble" !in FormatListAsWritten && "base64" !in FormatListAsWritten
  {
    assert FormatListAsWritten[16] == "latex:nopreamblebase64";
  }

  /** With the comma restored, both formats are accepted and the merged
      name is not. */
  lemma FormatListCorrected()
    ensures |FormatList| == 18
    ensures "latex:nopreamble" in FormatList && "base64" in FormatList
    ensures "latex:nopreamblebase64" !in FormatList
    ensures forall f :: f in FormatListAsWritten && f != "latex:nopreamblebase64" ==> f in FormatList
  {
  }

  const UrlPatternTable: map<string, string> := map["eps:text" := "epstext", "utxt" := "txt"]

  /** `_FORMAT_TO_URL_PATTERN_TABLE.get(output_format, output_format)` */
  function UrlPattern(format: string): (p: string)
    ensures format == "eps:text" ==> p == "epstext"
    ensures format == "utxt" ==> p == "txt"
    ensures format != "eps:text" && format != "utxt" ==> p == format
  {
    if format in UrlPatternTable then UrlPatternTable[format] else format
  }

  function PostUrl(baseUrl: string, format: string): string {
    baseUrl + "/" + UrlPattern(format) + "/"
  }

  function GetUrl(baseUrl: string, format: string, token: string): string {
    baseUrl + "/" + UrlPattern(format) + "/" + token
  }

  /** Text after the last '/' of a URL. */
  function LastSegment(url: string): string {
    url[RFind(url, '/') + 1..]
  }

  /** The GET URL is the POST URL followed by the token, and a token free
      of '/' is exactly its last path segment. */
  lemma TokenIsLastSegment(baseUrl: string, format: string, token: string)
    requires '/' !in token
    ensures GetUrl(baseUrl, format, token) == PostUrl(baseUrl, format) + token
    ensures LastSegment(GetUrl(baseUrl, format, token)) == token
    ensures LastSegment(PostUrl(baseUrl, format)) == ""
  {
    var prefix := PostUrl(baseUrl, format);
    var url := prefix + token;
    assert url == GetUrl(baseUrl, format, token);
    var p := |prefix| - 1;
    assert url[p] == '/';
    assert url[p + 1..] == token;
  }

  lemma SlashOutsideToChars()
    ensures '/' !in ToChars
  {
    ToCharsRanked();
    assert ToRank('/') == -1;
  }

  /** The request `compile_code` sends. */
  datatype Request = Request(url: string, body: Option<seq<Byte>>, contentType: Option<string>)

  /** Request construction in `compile_code`: POST carries the UTF-8 code as
      the body; GET carries the encoded code as the last path segment.
      `None` stands for the `KeyError` a non-base64 character would raise. */
  function CompileRequest(baseUrl: string, utf8: seq<Byte>, format: string, usePost: bool, codecs: Codecs): (r: Option<Request>)
    ensures usePost ==> r == Some(Request(PostUrl(baseUrl, format), Some(utf8), Some("text/plain;charset=\"UTF-8\"")))
    ensures !usePost ==> (r.Some? <==> EncodeCode(utf8, codecs).Some?)
    ensures !usePost && r.Some? ==>
      && r.value.body.None?
      && r.value.contentType.None?
      && r.value.url == PostUrl(baseUrl, format) + LastSegment(r.value.url)
      && LastSegment(r.value.url) == EncodeCode(utf8, codecs).value
  {
    if usePost then
      Some(Request(PostUrl(baseUrl, format), Some(utf8), Some("text/plain;charset=\"UTF-8\"")))
    else
      match EncodeCode(utf8, codecs)
      case None => None
      case Some(token) =>
        assert '/' !in token by {
          SlashOutsideToChars();
        }
        TokenIsLastSegment(baseUrl, format, token);
        Some(Request(GetUrl(baseUrl, format, token), None, None))
  }

  /** `format_to_ext(output_format)` */
  function FormatToExt(format: string): (ext: string)
    ensures |ext| > 0 && ext[0] == '.'
    ensures format == "txt" ==> ext == ".atxt"
    ensures format == "braille" ==> ext == ".braille.png"
    ensures format != "txt" && format != "braille" ==>
      && ':' !in ext[1..]
      && StartsWith(format, ext[1..])
      && (|ext| - 1 == |format| || format[|ext| - 1] == ':')
  {
    if format == "txt" then ".atxt"
    else if format == "braille" then ".braille.png"
    else
      var index := Find(format, ':');
      if index != -1 then "." + format[0..index] else "." + format
  }

  /** Every format of either list yields an extension with a name after
      the dot. */
  lemma ListedFormatsHaveExtensions()
    ensures forall f :: f in FormatListAsWritten || f in FormatList ==> |FormatToExt(f)| >= 2
  {
    forall f | f in FormatListAsWritten || f in FormatList ensures |FormatToExt(f)| >= 2 {
      assert |f| > 0 && f[0] != ':';
    }
  }

  // ---------------------------------------------------------------------------
  // Pipe mode: _read_uml_code

  predicate IsEndLine(line: string) {
    StartsWith(line, "@end")
  }

  /** Number of lines one `_read_uml_code` call consumes: through the first
      line starting with '@end', or all of them. */
  function ChunkLength(lines: seq<string>): (k: nat)
    ensures k <= |lines|
    ensures lines != [] ==> k > 0
    ensures forall i :: 0 <= i < k - 1 ==> !IsEndLine(lines[i])
    ensures k == |lines| || IsEndLine(lines[k - 1])
  {
    if lines == [] then 0
    else if IsEndLine(lines[0]) then 1
    else 1 + ChunkLength(lines[1..])
  }

  /** The text stream read line by line (`for line in stdin`). */
  class LineStream {
    var remaining: seq<string>

    constructor (lines: seq<string>)
      ensures remaining == lines
    {
      remaining := lines;
    }

    /** The next line, or `None` once the stream is exhausted. */
    method Next() returns (line: Option<string>)
      modifies this
      ensures old(remaining) == [] ==> line.None? && remaining == []
      ensures old(remaining) != [] ==> line == Some(old(remaining)[0]) && remaining == old(remaining)[1..]
    {
      if remaining == [] {
        line := None;
      } else {
        line := Some(remaining[0]);
        remaining := remaining[1..];
      }
    }
  }

  /** `_read_uml_code(stdin)`: reads lines up to and including the first one
      starting with '@end' and joins them with newlines. */
  method ReadUmlCode(stdin: LineStream) returns (code: string)
    modifies stdin
    ensures var k := ChunkLength(old(stdin.remaining));
      && code == Join(old(stdin.remaining)[..k], "\n")
      && stdin.remaining == old(stdin.remaining)[k..]
  {
    var codeLines: seq<string> := [];
    while true
      invariant old(stdin.remaining) == codeLines + stdin.remaining
      invariant forall i :: 0 <= i < |codeLines| ==> !IsEndLine(codeLines[i])
      decreases |stdin.remaining|
    {
      var line := stdin.Next();
      if line.None? {
        assert codeLines == old(stdin.remaining);
        return Join(codeLines, "\n");
      }
      codeLines := codeLines + [line.value];
      if IsEndLine(line.value) {
        ghost var lines := old(stdin.remaining);
        assert lines[..|codeLines|] == codeLines;
        assert lines[|codeLines|..] == stdin.remaining;
        return Join(codeLines, "\n");
      }
    }
  }

  /** Lines coming from a text stream are never empty (each carries its
      terminator, or is a non-empty last line), so a read returns "" only
      when the stream is exhausted; this is what ends pipe mode. */
  lemma ReadEmptyOnlyAtEnd(lines: seq<string>)
    requires forall i :: 0 <= i < |lines| ==> lines[i] != ""
    ensures Join(lines[..ChunkLength(lines)], "\n") == "" <==> lines == []
  {
    var k := ChunkLength(lines);
    if lines != [] {
      var chunk := lines[..k];
      assert chunk[k - 1] == lines[k - 1];
      assert |Join(chunk, "\n")| >= |chunk[k - 1]|;
    }
  }

  /** The successive reads of pipe mode, until the stream is exhausted. */
  function Chunks(lines: seq<string>): seq<seq<string>>
    decreases |lines|
  {
    if lines == [] then []
    else
      var k := ChunkLength(lines);
      [lines[..k]] + Chunks(lines[k..])
  }

  function Concat(chunks: seq<seq<string>>): seq<string> {
    if chunks == [] then [] else chunks[0] + Concat(chunks[1..])
  }

  /** Pipe mode's reads partition the input: together they are the input in
      order, none is empty, and every read but the last ends at an '@end'
      line. */
  lemma {:induction false} ChunksPartition(lines: seq<string>)
    ensures Concat(Chunks(lines)) == lines
    ensures forall i :: 0 <= i < |Chunks(lines)| ==> Chunks(lines)[i] != []
    ensures forall i :: 0 <= i < |Chunks(lines)| - 1 ==>
      IsEndLine(Chunks(lines)[i][|Chunks(lines)[i]| - 1])
    decreases |lines|
  {
    if lines != [] {
      var k := ChunkLength(lines);
      ChunksPartition(lines[k..]);
      assert lines == lines[..k] + lines[k..];
      var cs := Chunks(lines);
      assert cs == [lines[..k]] + Chunks(lines[k..]);
      if Chunks(lines[k..]) != [] {
        assert k < |lines|;
      }
      forall i | 0 <= i < |cs| - 1
        ensures IsEndLine(cs[i][|cs[i]| - 1])
      {
        if i > 0 {
          assert cs[i] == Chunks(lines[k..])[i - 1];
        }
      }
    }
  }

  // ---------------------------------------------------------------------------
  // Batch mode: _for_each_file

  /** What `proc(filepath)` did: returned a truth value, or raised. */
  datatype Outcome = Returned(ok: bool) | Raised

  /** One match of a glob pattern: whether it is a regular file, and what
      `proc` does when handed it. */
  datatype GlobEntry = GlobEntry(isFile: bool, outcome: Outcome)

  predicate Succeeded(o: Outcome) {
    o == Returned(true)
  }

  /** Outcomes of the regular files among one pattern's matches, in order. */
  function FileOutcomes(entries: seq<GlobEntry>): seq<Outcome> {
    if entries == [] then []
    else
      var last := entries[|entries| - 1];
      FileOutcomes(entries[..|entries| - 1]) + (if last.isFile then [last.outcome] else [])
  }

  /** Outcomes of all processed files, pattern after pattern. */
  function AllOutcomes(paths: seq<seq<GlobEntry>>): seq<Outcome> {
    if paths == [] then []
    else AllOutcomes(paths[..|paths| - 1]) + FileOutcomes(paths[|paths| - 1])
  }

  /** Indices of the patterns that matched no regular file. */
  function InvalidPaths(paths: seq<seq<GlobEntry>>): seq<nat> {
    if paths == [] then []
    else InvalidPaths(paths[..|paths| - 1]) + (if FileOutcomes(paths[|paths| - 1]) == [] then [|paths| - 1] else [])
  }

  predicate AllSucceeded(outcomes: seq<Outcome>) {
    forall i :: 0 <= i < |outcomes| ==> Succeeded(outcomes[i])
  }

  /** Every regular file among one pattern's matches was processed
      successfully. */
  predicate FilesSucceeded(entries: seq<GlobEntry>) {
    forall j :: 0 <= j < |entries| && entries[j].isFile ==> Succeeded(entries[j].outcome)
  }

  lemma AllSucceededAppend(a: seq<Outcome>, b: seq<Outcome>)
    ensures AllSucceeded(a + b) <==> AllSucceeded(a) && AllSucceeded(b)
  {
    assert forall i :: 0 <= i < |a| ==> (a + b)[i] == a[i];
    assert forall i :: 0 <= i < |b| ==> (a + b)[|a| + i] == b[i];
  }

  lemma {:induction false} FileOutcomesVerdict(entries: seq<GlobEntry>)
    ensures AllSucceeded(FileOutcomes(entries)) <==> FilesSucceeded(entries)
  {
    if entries != [] {
      var n := |entries|;
      var last := entries[n - 1];
      var tail := if last.isFile then [last.outcome] else [];
      FileOutcomesVerdict(entries[..n - 1]);
      AllSucceededAppend(FileOutcomes(entries[..n - 1]), tail);
      assert AllSucceeded(tail) <==> (last.isFile ==> Succeeded(last.outcome)) by {
        if last.isFile { assert tail[0] == last.outcome; }
      }
      assert forall j :: 0 <= j < n - 1 ==> entries[..n - 1][j] == entries[j];
    }
  }

  /** The batch verdict is true exactly when every regular file matched by
      every pattern was processed successfully. */
  lemma {:induction false} AllOutcomesVerdict(paths: seq<seq<GlobEntry>>)
    ensures AllSucceeded(AllOutcomes(paths)) <==> forall i :: 0 <= i < |paths| ==> FilesSucceeded(paths[i])
  {
    if paths != [] {
      var n := |paths|;
      AllOutcomesVerdict(paths[..n - 1]);
      FileOutcomesVerdict(paths[n - 1]);
      AllSucceededAppend(AllOutcomes(paths[..n - 1]), FileOutcomes(paths[n - 1]));
      assert forall i :: 0 <= i < n - 1 ==> paths[..n - 1][i] == paths[i];
    }
  }

  /** The inner loop of `_for_each_file`: `proc` on each regular file among
      one pattern's matches, folding each outcome into the running verdict;
      `doProcess` tells whether any file was found. */
  method ProcessMatches(entries: seq<GlobEntry>, result0: bool, processed0: seq<Outcome>)
    returns (result: bool, processed: seq<Outcome>, doProcess: bool)
    requires result0 == AllSucceeded(processed0)
    ensures processed == processed0 + FileOutcomes(entries)
    ensures doProcess <==> FileOutcomes(entries) != []
    ensures result == AllSucceeded(processed)
  {
    result, processed, doProcess := result0, processed0, false;
    var f := 0;
    while f < |entries|
      invariant 0 <= f <= |entries|
      invariant processed == processed0 + FileOutcomes(entries[..f])
      invariant doProcess == (FileOutcomes(entries[..f]) != [])
      invariant result == AllSucceeded(processed)
    {
      assert entries[..f + 1][..f] == entries[..f];
      if entries[f].isFile {
        doProcess := true;
        var ok := Succeeded(entries[f].outcome);
        result := ok && result;
        AllSucceededAppend(processed, [entries[f].outcome]);
        assert [entries[f].outcome][0] == entries[f].outcome;
        processed := processed + [entries[f].outcome];
      }
      f := f + 1;
    }
    assert entries[..f] == entries;
  }

  /** `_for_each_file(paths, proc, do_exit)`, with each pattern's glob
      matches given as data. `proc` is applied to every regular file, also
      after an earlier failure; `processed` lists those calls' outcomes in
      order, `invalid` the patterns reported as invalid paths, and
      `exitStatus` the status passed to `sys.exit` when `do_exit` is set. */
  method ForEachFile(paths: seq<seq<GlobEntry>>, doExit: bool)
    returns (result: bool, processed: seq<Outcome>, invalid: seq<nat>, exitStatus: Option<int>)
    ensures processed == AllOutcomes(paths)
    ensures invalid == InvalidPaths(paths)
    ensures result <==> forall i :: 0 <= i < |paths| ==> FilesSucceeded(paths[i])
    ensures exitStatus.Some? <==> doExit
    ensures doExit ==> exitStatus.value == (if result then 0 else 1)
  {
    result, processed, invalid := true, [], [];
    var p := 0;
    while p < |paths|
      invariant 0 <= p <= |paths|
      invariant processed == AllOutcomes(paths[..p])
      invariant invalid == InvalidPaths(paths[..p])
      invariant result == AllSucceeded(processed)
    {
      var doProcess;
      assert paths[..p + 1][..p] == paths[..p];
      result, processed, doProcess := ProcessMatches(paths[p], result, processed);
      if !doProcess {
        invalid := invalid + [p];
      }
      p := p + 1;
    }
    assert paths[..p] == paths;
    AllOutcomesVerdict(paths);
    exitStatus := if doExit then Some(if result then 0 else 1) else None;
  }
}

=== FILE: redpen.dfy ===
/** The decision logic of the RedPen client (sabacan/redpen.py): choosing
    the document parser from a file name, assembling the validation request,
    normalising JSON results, counting errors in `plain` results and the
    error-limit check. The HTTP exchange and the JSON/XML parsers are
    foreign code. */
module RedPen {
  import opened Wrappers
  import opened Text

  /** `PARSER_EXTENSIONS_LIST`: each document parser with the file
      extensions (without the dot) that select it. */
  const ParserExtensionsList: seq<(string, seq<string>)> := [
    ("markdown", ["md", "markdown"]),
    ("plain", ["txt"]),
    ("wiki", ["wiki"]),
    ("asciidoc", ["adoc", "asciidoc"]),
    ("latex", ["tex", "latex"]),
    ("rest", ["rest", "rst"]),
    ("review", ["re", "review"]),
    ("properties", ["properties"])
  ]

  /** The parser names, which are also the choices of `--format`. */
  function ParserNames(): (names: seq<string>)
    ensures |names| == |ParserExtensionsList|
    ensures forall i :: 0 <= i < |names| ==> names[i] == ParserExtensionsList[i].0
  {
    seq(|ParserExtensionsList|, i requires 0 <= i < |ParserExtensionsList| => ParserExtensionsList[i].0)
  }

  /** `FORMAT_LIST`: the choices of `--result-format`. */
  const ResultFormats: seq<string> := ["json", "json2", "plain", "plain2", "xml"]

  // ---------------------------------------------------------------------------
  // get_document_parser_from_filename

  function StripTrailingSlashes(path: string): (p: string)
    ensures p == [] || p[|p| - 1] != '/'
  {
    if path != [] && path[|path| - 1] == '/' then StripTrailingSlashes(path[..|path| - 1]) else path
  }

  /** `PurePath(path).name`: the final path component. */
  function FileName(path: string): (name: string)
    ensures '/' !in name
  {
    var p := StripTrailingSlashes(path);
    p[RFind(p, '/') + 1..]
  }

  /** `PurePath(path).suffix`: the text from the last '.' of the file name,
      or "" when that dot is the name's first or last character or there is
      no dot. */
  function Suffix(path: string): (suffix: string)
    ensures suffix == "" || (|suffix| >= 2 && suffix[0] == '.')
  {
    var name := FileName(path);
    var i := RFind(name, '.');
    if 0 < i < |name| - 1 then name[i..] else ""
  }

  /** When a file name has a suffix, and what it is. */
  lemma SuffixCharacterized(path: string)
    ensures var name, suffix := FileName(path), Suffix(path);
      && (suffix != "" <==>
            (|name| > 0 && name[|name| - 1] != '.' && exists j :: 0 < j < |name| - 1 && name[j] == '.'))
      && (suffix != "" ==>
            && |suffix| < |name|
            && suffix == name[|name| - |suffix|..]
            && '.' !in suffix[1..])
  {
  }

  /** The loop over `PARSER_EXTENSIONS_LIST`: the parser of the first entry
      listing `ext`. */
  function FindParser(ext: string, table: seq<(string, seq<string>)>): (r: Option<string>)
    ensures r.None? <==> forall i :: 0 <= i < |table| ==> ext !in table[i].1
    ensures r.Some? ==> exists i :: (0 <= i < |table| && table[i].0 == r.value && ext in table[i].1 &&
      forall j :: 0 <= j < i ==> ext !in table[j].1)
  {
    if table == [] then None
    else if ext in table[0].1 then Some(table[0].0)
    else
      var r := FindParser(ext, table[1..]);
      if r.Some? then
        ghost var i :| 0 <= i < |table[1..]| && table[1..][i].0 == r.value && ext in table[1..][i].1 &&
          forall j :: 0 <= j < i ==> ext !in table[1..][j].1;
        assert table[i + 1].0 == r.value && ext in table[i + 1].1;
        r
      else r
  }

  /** `get_document_parser_from_filename(filename)` */
  function ParserFromFilename(filename: string): (r: Option<string>)
    ensures var suffix := Suffix(filename);
      && (r.Some? <==> suffix != "" && exists i :: 0 <= i < |ParserExtensionsList| && suffix[1..] in ParserExtensionsList[i].1)
      && (r.Some? ==> exists i :: (0 <= i < |ParserExtensionsList| &&
            ParserExtensionsList[i].0 == r.value && suffix[1..] in ParserExtensionsList[i].1))
  {
    var suffix := Suffix(filename);
    if suffix == "" then None
    else FindParser(suffix[1..], ParserExtensionsList)
  }

  /** No extension is listed for two parsers, so "the first entry listing
      it" is "the entry listing it". */
  lemma ExtensionsUnambiguous()
    ensures forall i, j, e :: 0 <= i < j < |ParserExtensionsList| && e in ParserExtensionsList[i].1 ==>
      e !in ParserExtensionsList[j].1
  {
  }

  /** Every listed extension is a plain, non-empty word. */
  lemma ListedExtensionsArePlain()
    ensures forall i, e :: 0 <= i < |ParserExtensionsList| && e in ParserExtensionsList[i].1 ==>
      e != [] && '/' !in e && '.' !in e
  {
  }

  lemma FileNameOfPlainName(name: string)
    requires '/' !in name
    ensures FileName(name) == name
  {
  }

  /** A slash-free name whose last dot sits strictly inside it has the
      suffix that starts at that dot. */
  lemma SuffixAtLastDot(name: string, k: int)
    requires '/' !in name
    requires 0 < k < |name| - 1 && name[k] == '.' && '.' !in name[k + 1..]
    ensures Suffix(name) == name[k..]
  {
    FileNameOfPlainName(name);
  }

  /** The suffix of `stem.ext` is `.ext` when `ext` is a plain word. */
  lemma SuffixOfStemExt(stem: string, ext: string)
    requires stem != [] && '/' !in stem
    requires ext != [] && '/' !in ext && '.' !in ext
    ensures Suffix(stem + "." + ext) == "." + ext
  {
    var name := stem + "." + ext;
    assert name[|stem|] == '.' && name[|stem| + 1..] == ext && name[|stem|..] == "." + ext;
    SuffixAtLastDot(name, |stem|);
  }

  /** A file `stem.ext` with a listed extension selects the parser that
      lists it. */
  lemma ListedExtensionSelectsParser(stem: string, i: nat, ext: string)
    requires stem != [] && '/' !in stem
    requires i < |ParserExtensionsList| && ext in ParserExtensionsList[i].1
    ensures ParserFromFilename(stem + "." + ext) == Some(ParserExtensionsList[i].0)
  {
    ListedExtensionsArePlain();
    SuffixOfStemExt(stem, ext);
    assert ("." + ext)[1..] == ext;
    var r := ParserFromFilename(stem + "." + ext);
    ExtensionsUnambiguous();
    var j :| 0 <= j < |ParserExtensionsList| && ParserExtensionsList[j].0 == r.value
      && ext in ParserExtensionsList[j].1;
    assert j == i;
  }

  /** A name without a dot, or whose only dot leads it, selects no parser. */
  lemma UndottedNameHasNoParser(name: string)
    requires '/' !in name
    requires '.' !in name || (name[0] == '.' && '.' !in name[1..])
    ensures ParserFromFilename(name) == None
  {
    FileNameOfPlainName(name);
    SuffixCharacterized(name);
  }

  // ---------------------------------------------------------------------------
  // _get_document_parser

  /** `_get_document_parser(args)`: an explicit `--format` wins, then the
      parser the input file name selects, then 'plain'. */
  function DocumentParser(format: Option<string>, inputFile: Option<string>): (parser: string)
    ensures format.Some? ==> parser == format.value
    ensures format.None? && inputFile.Some? && ParserFromFilename(inputFile.value).Some? ==>
      parser == ParserFromFilename(inputFile.value).value
    ensures format.None? && (inputFile.None? || ParserFromFilename(inputFile.value).None?) ==>
      parser == "plain"
  {
    if format.Some? then format.value
    else if inputFile.Some? && ParserFromFilename(inputFile.value).Some? then ParserFromFilename(inputFile.value).value
    else "plain"
  }

  /** When `--format` is absent or one of its choices, the parser sent to the
      server is always one of the known parsers. */
  lemma DocumentParserIsKnown(format: Option<string>, inputFile: Option<string>)
    requires format.None? || format.value in ParserNames()
    ensures DocumentParser(format, inputFile) in ParserNames()
  {
    var names := ParserNames();
    assert names[1] == "plain";
    if format.None? && inputFile.Some? {
      var r := ParserFromFilename(inputFile.value);
      if r.Some? {
        var i :| 0 <= i < |ParserExtensionsList| && ParserExtensionsList[i].0 == r.value;
        assert names[i] == r.value;
      }
    }
  }

  // ---------------------------------------------------------------------------
  // validate

  /** The first value stored under `key` in an ordered list of form fields. */
  function Lookup(fields: seq<(string, string)>, key: string): Option<string> {
    if fields == [] then None
    else if fields[0].0 == key then Some(fields[0].1)
    else Lookup(fields[1..], key)
  }

  function Keys(fields: seq<(string, string)>): seq<string> {
    seq(|fields|, i requires 0 <= i < |fields| => fields[i].0)
  }

  /** The POST request `validate` sends: its URL and its form fields in
      the order they are encoded. */
  datatype FormRequest = FormRequest(url: string, fields: seq<(string, string)>)

  /** Request assembly in `validate`: four fixed fields, and `config` only
      when a configuration is given. */
  function ValidateRequest(baseUrl: string, document: string, documentParser: string, lang: string,
                           format: string, config: Option<string>): (r: FormRequest)
    ensures r.url == baseUrl + "/rest/document/validate"
    ensures Keys(r.fields) == ["document", "documentParser", "lang", "format"] + (if config.Some? then ["config"] else [])
    ensures Lookup(r.fields, "document") == Some(document)
    ensures Lookup(r.fields, "documentParser") == Some(documentParser)
    ensures Lookup(r.fields, "lang") == Some(lang)
    ensures Lookup(r.fields, "format") == Some(format)
    ensures Lookup(r.fields, "config") == config
  {
    var data := [("document", document), ("documentParser", documentParser), ("lang", lang), ("format", format)];
    var fields := if config.Some? then data + [("config", config.value)] else data;
    var tail := if config.Some? then [("config", config.value)] else [];
    assert fields == data + tail;
    assert fields[1..] == data[1..] + tail;
    assert fields[2..] == data[2..] + tail;
    assert fields[3..] == data[3..] + tail;
    assert fields[4..] == tail;
    assert Lookup(fields, "lang") == Lookup(fields[1..], "lang") == Lookup(fields[2..], "lang");
    assert Lookup(fields, "format") == Lookup(fields[1..], "format") == Lookup(fields[2..], "format")
      == Lookup(fields[3..], "format");
    assert Lookup(fields, "config") == Lookup(fields[1..], "config") == Lookup(fields[2..], "config")
      == Lookup(fields[3..], "config") == Lookup(tail, "config");
    FormRequest(baseUrl + "/rest/document/validate", fields)
  }

  /** The reply handling in `validate`: JSON results are wrapped in
      brackets, every other result is returned as received. */
  function WrapResult(format: string, reply: string): (r: string)
    ensures StartsWith(format, "json") ==> |r| == |reply| + 2 && r[0] == '[' && r[|r| - 1] == ']' && r[1..|r| - 1] == reply
    ensures !StartsWith(format, "json") ==> r == reply
  {
    if StartsWith(format, "json") then "[" + reply + "]" else reply
  }

  /** Among the result formats, exactly 'json' and 'json2' are wrapped. */
  lemma WrappedResultFormats()
    ensures forall f :: f in ResultFormats ==> (StartsWith(f, "json") <==> f == "json" || f == "json2")
  {
    assert "json2"[..4] == "json";
    assert "plain"[..4] != "json" by { assert "plain"[0] == 'p'; }
    assert "plain2"[..4] != "json" by { assert "plain2"[0] == 'p'; }
    assert "xml"[..] != "json";
  }

  // ---------------------------------------------------------------------------
  // get_number_of_errors and the limit check in main

  /** The counts that rest on foreign parsers: `json.loads` for 'json' and
      'json2', ElementTree for 'xml' (each `None` when the parser or the
      lookup into its result raises on a malformed reply), and the `re`
      module for 'plain2', which cannot fail. */
  datatype Counters = Counters(
    json: string -> Option<nat>,
    json2: string -> Option<nat>,
    plain2: string -> nat,
    xml: string -> Option<nat>)

  /** What `get_number_of_errors` gives: a count, `None` for a format that
      matches no branch, or the exception a foreign parser raised. */
  datatype ErrorCount = Counted(n: nat) | NoBranch | Raised

  /** `get_number_of_errors(result, format)` */
  function NumberOfErrors(result: string, format: string, counters: Counters): (r: ErrorCount)
    ensures r.NoBranch? <==> format !in ResultFormats
    ensures r.Raised? <==>
      || (format == "json" && counters.json(result).None?)
      || (format == "json2" && counters.json2(result).None?)
      || (format == "xml" && counters.xml(result).None?)
    ensures format == "plain" ==> r == Counted(
      Terminators(result) + (if result != [] && !IsLineBreak(result[|result| - 1]) then 1 else 0))
  {
    SplitLinesCount(result);
    if format == "json" then Parsed(counters.json(result))
    else if format == "json2" then Parsed(counters.json2(result))
    else if format == "plain" then Counted(|SplitLines(result)|)
    else if format == "plain2" then Counted(counters.plain2(result))
    else if format == "xml" then Parsed(counters.xml(result))
    else NoBranch
  }

  function Parsed(count: Option<nat>): (r: ErrorCount)
    ensures r.Raised? <==> count.None?
    ensures count.Some? ==> r == Counted(count.value)
  {
    if count.Some? then Counted(count.value) else Raised
  }

  /** A `plain` result of n report lines, none of them empty at the end,
      counts n errors. */
  lemma PlainCountOfLines(lines: seq<string>, counters: Counters)
    requires lines != [] && lines[|lines| - 1] != ""
    requires forall i :: 0 <= i < |lines| ==> NoLineBreak(lines[i])
    ensures NumberOfErrors(Join(lines, "\n"), "plain", counters) == Counted(|lines|)
  {
    SplitLinesOfJoin(lines);
  }

  /** The check at the end of `main`, for a result format among the
      choices: the run fails when the error count is above the limit, and
      `None` stands for the exception that ends `main` when the count raised. */
  function ExceedsLimit(limit: int, result: string, format: string, counters: Counters): (failed: Option<bool>)
    requires format in ResultFormats
    ensures failed.None? <==> NumberOfErrors(result, format, counters).Raised?
    ensures failed.Some? ==> (NumberOfErrors(result, format, counters).Counted? &&
      (failed.value <==> NumberOfErrors(result, format, counters).n > limit))
    ensures NumberOfErrors(result, format, counters).Counted? && NumberOfErrors(result, format, counters).n == limit ==>
      failed == Some(false)
  {
    match NumberOfErrors(result, format, counters)
    case Counted(n) => Some(limit < n)
    case Raised => None
    case NoBranch => assert false; None
  }
}

=== FILE: text.dfy ===
/** The handful of Python `str` built-ins that the client code relies on:
    `startswith`, `find`, `rfind`, `join`, `splitlines`, `upper`, and the
    `int()`/`str()` conversions between integers and decimal text. */
module Text {
  import opened Wrappers

  /** `s.startswith(prefix)` */
  predicate StartsWith(s: string, prefix: string) {
    |prefix| <= |s| && s[..|prefix|] == prefix
  }

  /** `s.find(c)` for a one-character needle: the first index of `c`, or -1. */
  function Find(s: string, c: char): (r: int)
    ensures -1 <= r < |s|
    ensures r == -1 <==> c !in s
    ensures r >= 0 ==> s[r] == c && c !in s[..r]
  {
    if s == [] then -1
    else if s[0] == c then 0
    else
      var k := Find(s[1..], c);
      if k == -1 then -1 else k + 1
  }

  /** `s.rfind(c)` for a one-character needle: the last index of `c`, or -1. */
  function RFind(s: string, c: char): (r: int)
    ensures -1 <= r < |s|
    ensures r == -1 <==> c !in s
    ensures r >= 0 ==> s[r] == c && c !in s[r + 1..]
  {
    if s == [] then -1
    else if s[|s| - 1] == c then |s| - 1
    else
      var init := s[..|s| - 1];
      var k := RFind(init, c);
      assert s == init + [s[|s| - 1]];
      if k == -1 then -1
      else
        assert s[k + 1..] == init[k + 1..] + [s[|s| - 1]];
        k
  }

  /** `sep.join(xs)` */
  function Join(xs: seq<string>, sep: string): string {
    if |xs| == 0 then ""
    else if |xs| == 1 then xs[0]
    else Join(xs[..|xs| - 1], sep) + sep + xs[|xs| - 1]
  }

  /** `s.upper()` restricted to ASCII letters. */
  function Upper(s: string): (r: string)
    ensures |r| == |s|
    ensures forall i :: 0 <= i < |r| ==> !('a' <= r[i] <= 'z')
    ensures forall i :: 0 <= i < |r| ==> r[i] == s[i] || ('a' <= s[i] <= 'z' && r[i] as int + 32 == s[i] as int)
  {
    seq(|s|, i requires 0 <= i < |s| => if 'a' <= s[i] <= 'z' then (s[i] as int - 32) as char else s[i])
  }

  // ---------------------------------------------------------------------------
  // str.splitlines

  /** The characters `str.splitlines` treats as line boundaries
      (`\r\n` is one boundary made of two of them). */
  predicate IsLineBreak(c: char) {
    || c == '\n' || c == '\r'
    || c as int == 0x0B || c as int == 0x0C
    || c as int == 0x1C || c as int == 0x1D || c as int == 0x1E
    || c as int == 0x85 || c as int == 0x2028 || c as int == 0x2029
  }

  predicate NoLineBreak(s: string) {
    forall i :: 0 <= i < |s| ==> !IsLineBreak(s[i])
  }

  /** Length of the text before the first boundary. */
  function LineEnd(s: string): (k: nat)
    ensures k <= |s|
    ensures NoLineBreak(s[..k])
    ensures k < |s| ==> IsLineBreak(s[k])
  {
    if s == [] || IsLineBreak(s[0]) then 0
    else
      var k := LineEnd(s[1..]);
      assert s[..k + 1] == [s[0]] + s[1..][..k];
      k + 1
  }

  /** Width of the boundary starting at `s[k]`: 2 for `\r\n`, otherwise 1. */
  function BreakWidth(s: string, k: nat): nat
    requires k < |s|
  {
    if s[k] == '\r' && k + 1 < |s| && s[k + 1] == '\n' then 2 else 1
  }

  /** `s.splitlines()`: the lines of `s` without their terminators; a final
      terminator does not open an empty last line, and "" has no lines. */
  function SplitLines(s: string): (lines: seq<string>)
    ensures forall i :: 0 <= i < |lines| ==> NoLineBreak(lines[i])
    decreases |s|
  {
    if s == [] then []
    else
      var k := LineEnd(s);
      if k == |s| then [s]
      else [s[..k]] + SplitLines(s[k + BreakWidth(s, k)..])
  }

  /** Number of line terminators in `s`, scanning one character at a time
      and reading `\r\n` as one terminator. */
  function Terminators(s: string): nat {
    if s == [] then 0
    else if s[0] == '\r' && |s| > 1 && s[1] == '\n' then 1 + Terminators(s[2..])
    else (if IsLineBreak(s[0]) then 1 else 0) + Terminators(s[1..])
  }

  lemma {:induction false} TerminatorsSkipText(a: string, b: string)
    requires NoLineBreak(a)
    ensures Terminators(a + b) == Terminators(b)
  {
    if a != [] {
      assert (a + b)[0] == a[0] && (a + b)[1..] == a[1..] + b;
      TerminatorsSkipText(a[1..], b);
    } else {
      assert a + b == b;
    }
  }

  /** `splitlines` yields one line per terminator, plus one for unterminated
      text at the end. */
  lemma {:induction false} SplitLinesCount(s: string)
    ensures |SplitLines(s)| == Terminators(s) + (if s != [] && !IsLineBreak(s[|s| - 1]) then 1 else 0)
    decreases |s|
  {
    if s != [] {
      var k := LineEnd(s);
      if k == |s| {
        assert s + [] == s;
        TerminatorsSkipText(s, []);
        assert s[..k] == s;
      } else {
        var w := BreakWidth(s, k);
        var rest := s[k + w..];
        assert s == s[..k] + s[k..];
        TerminatorsSkipText(s[..k], s[k..]);
        if w == 2 {
          assert s[k..][2..] == rest;
        } else {
          assert s[k..][1..] == rest;
        }
        assert Terminators(s[k..]) == 1 + Terminators(rest);
        SplitLinesCount(rest);
        if rest == [] {
          assert s[|s| - 1] == s[k + w - 1];
        } else {
          assert s[|s| - 1] == rest[|rest| - 1];
        }
      }
    }
  }

  /** `[x] + ys` joined is `x`, the separator, then `ys` joined. */
  lemma {:induction false} JoinFront(x: string, ys: seq<string>, sep: string)
    requires ys != []
    ensures Join([x] + ys, sep) == x + sep + Join(ys, sep)
    decreases |ys|
  {
    if |ys| > 1 {
      var init := ys[..|ys| - 1];
      assert ([x] + ys)[..|[x] + ys| - 1] == [x] + init;
      JoinFront(x, init, sep);
    }
  }

  /** The first boundary of `x + rest` is where `rest` starts. */
  lemma {:induction false} LineEndAt(x: string, rest: string)
    requires NoLineBreak(x) && rest != [] && IsLineBreak(rest[0])
    ensures LineEnd(x + rest) == |x|
    decreases |x|
  {
    if x != [] {
      assert (x + rest)[1..] == x[1..] + rest;
      LineEndAt(x[1..], rest);
    } else {
      assert x + rest == rest;
    }
  }

  /** `"\n".join(lines).splitlines() == lines` when no line holds a boundary
      and the last line is not empty. */
  lemma {:induction false} SplitLinesOfJoin(lines: seq<string>)
    requires lines != [] && lines[|lines| - 1] != ""
    requires forall i :: 0 <= i < |lines| ==> NoLineBreak(lines[i])
    ensures SplitLines(Join(lines, "\n")) == lines
    decreases |lines|
  {
    if |lines| > 1 {
      var x, ys := lines[0], lines[1..];
      assert lines == [x] + ys;
      JoinFront(x, ys, "\n");
      var rest := Join(ys, "\n");
      var s := Join(lines, "\n");
      assert s == x + ("\n" + rest);
      LineEndAt(x, "\n" + rest);
      assert s[..|x|] == x;
      assert s[|x| + 1..] == rest;
      SplitLinesOfJoin(ys);
    }
  }

  // ---------------------------------------------------------------------------
  // int() and str() on decimal text

  predicate IsDigit(c: char) { '0' <= c <= '9' }

  predicate AllDigits(s: string) {
    forall i :: 0 <= i < |s| ==> IsDigit(s[i])
  }

  /** Value of a string of decimal digits, most significant first. */
  function DigitsValue(ds: string): nat
    requires AllDigits(ds)
  {
    if ds == [] then 0
    else DigitsValue(ds[..|ds| - 1]) * 10 + (ds[|ds| - 1] as int - '0' as int)
  }

  /** An optional sign followed by at least one decimal digit. */
  predicate IsIntLiteral(s: string) {
    var digits := if |s| > 0 && (s[0] == '+' || s[0] == '-') then s[1..] else s;
    |digits| > 0 && AllDigits(digits)
  }

  /** `int(s)`, with `None` standing for the `ValueError` it raises. */
  function ParseInt(s: string): (r: Option<int>)
    ensures r.Some? <==> IsIntLiteral(s)
    ensures r.Some? && s[0] == '-' ==> r.value <= 0
    ensures r.Some? && s[0] != '-' ==> r.value >= 0
  {
    if s == [] then None
    else if s[0] == '+' || s[0] == '-' then
      var digits := s[1..];
      if |digits| > 0 && AllDigits(digits) then
        var magnitude: int := DigitsValue(digits);
        Some(if s[0] == '-' then -magnitude else magnitude)
      else None
    else if AllDigits(s) then Some(DigitsValue(s))
    else None
  }

  /** Decimal digits of `n`, most significant first, without leading zeros. */
  function NatToDigits(n: nat): (ds: string)
    ensures |ds| > 0 && AllDigits(ds)
  {
    var d := ['0' + (n % 10) as char];
    if n < 10 then d else NatToDigits(n / 10) + d
  }

  /** `str(n)` */
  function IntToString(n: int): string {
    if n < 0 then "-" + NatToDigits(-n) else NatToDigits(n)
  }

  lemma {:induction false} DigitsRoundTrip(n: nat)
    ensures DigitsValue(NatToDigits(n)) == n
  {
    if n >= 10 {
      var ds := NatToDigits(n);
      assert ds[..|ds| - 1] == NatToDigits(n / 10);
      DigitsRoundTrip(n / 10);
    }
  }

  /** A leading zero does not change the value of a digit string. */
  lemma {:induction false} DigitsValueLeadingZero(ds: string)
    requires AllDigits(ds)
    ensures AllDigits("0" + ds) && DigitsValue("0" + ds) == DigitsValue(ds)
  {
    if ds != [] {
      var zs := "0" + ds;
      assert zs[..|zs| - 1] == "0" + ds[..|ds| - 1];
      DigitsValueLeadingZero(ds[..|ds| - 1]);
    }
  }

  /** `int()` ignores a '+' sign and leading zeros, and '-' negates: with
      `ParseIntOfIntToString` this gives the value of every literal. */
  lemma ParseIntOfSignedDigits(ds: string)
    requires |ds| > 0 && AllDigits(ds)
    ensures ParseInt("+" + ds) == ParseInt(ds)
    ensures ParseInt("0" + ds) == ParseInt(ds)
    ensures ParseInt("-" + ds) == Some(-ParseInt(ds).value)
  {
    assert ("+" + ds)[1..] == ds;
    assert ("-" + ds)[1..] == ds;
    DigitsValueLeadingZero(ds);
  }

  /** `int(str(n)) == n` for every integer. */
  lemma ParseIntOfIntToString(n: int)
    ensures ParseInt(IntToString(n)) == Some(n)
  {
    var s := IntToString(n);
    if n < 0 {
      DigitsRoundTrip(-n);
      assert s[0] == '-' && s[1..] == NatToDigits(-n);
    } else {
      DigitsRoundTrip(n);
      assert IsDigit(s[0]);
    }
  }
}

=== FILE: utils.dfy ===
/** The configuration helpers of sabacan/utils.py: the command-line action
    that stores an option in the environment, the layered lookup of the
    server URL and timeout, and the help text of options that a client
    accepts but does not support. The process environment is a map from
    variable names to their text. */
module Utils {
  import opened Wrappers
  import opened Text

  type Env = map<string, string>

  /** `'SABACAN_%s<suffix>' % servername.upper()` */
  function ServiceVar(servername: string, suffix: string): (name: string)
    ensures StartsWith(name, "SABACAN_")
    ensures |name| == 8 + |servername| + |suffix| && name[|name| - |suffix|..] == suffix
    ensures name[8..|name| - |suffix|] == Upper(servername)
  {
    var name := "SABACAN_" + Upper(servername) + suffix;
    assert name[..8] == "SABACAN_";
    assert name[8..|name| - |suffix|] == Upper(servername);
    name
  }

  /** A per-service variable never coincides with the shared one, whatever
      the service is called. */
  lemma ServiceVarIsNotShared(servername: string)
    ensures ServiceVar(servername, "_URL") != "SABACAN_URL"
    ensures ServiceVar(servername, "_TIMEOUT") != "SABACAN_TIMEOUT"
  {
    assert |ServiceVar(servername, "_URL")| > |"SABACAN_URL"|;
    assert |ServiceVar(servername, "_TIMEOUT")| > |"SABACAN_TIMEOUT"|;
  }

  // ---------------------------------------------------------------------------
  // get_server_url

  /** `get_server_url(servername, default)`: the per-service variable if it
      is set (even to ""), else the shared `SABACAN_URL`, else `default`. */
  function GetServerUrl(env: Env, servername: string, default: Option<string>): (url: Option<string>)
    ensures var own := ServiceVar(servername, "_URL");
      && (own in env ==> url == Some(env[own]))
      && (own !in env && "SABACAN_URL" in env ==> url == Some(env["SABACAN_URL"]))
      && (own !in env && "SABACAN_URL" !in env ==> url == default)
  {
    var own := ServiceVar(servername, "_URL");
    if own in env then Some(env[own])
    else if "SABACAN_URL" in env then Some(env["SABACAN_URL"])
    else default
  }

  /** The result is always one of the environment's values or the default. */
  lemma ServerUrlComesFromALayer(env: Env, servername: string, default: Option<string>)
    ensures var url := GetServerUrl(env, servername, default);
      url == default || (url.Some? && url.value in env.Values)
  {
  }

  /** Setting the shared variable cannot override a per-service one. */
  lemma SharedUrlCannotOverride(env: Env, servername: string, default: Option<string>, u: string)
    requires ServiceVar(servername, "_URL") in env
    ensures GetServerUrl(env["SABACAN_URL" := u], servername, default) == GetServerUrl(env, servername, default)
  {
    ServiceVarIsNotShared(servername);
  }

  // ---------------------------------------------------------------------------
  // get_timeout

  /** The value `get_timeout` settles on before converting it: text from the
      environment, the caller's default, or nothing. */
  datatype RawTimeout = FromEnv(text: string) | FromDefault(n: int) | Absent

  /** `get_timeout(servername, default)`: the per-service variable, else the
      shared `SABACAN_TIMEOUT`, else `default`; the value chosen is converted
      with `int()`, and text that does not convert gives `None` without
      looking at the lower layers. */
  function GetTimeout(env: Env, servername: string, default: Option<int>): (timeout: Option<int>)
    ensures var own := ServiceVar(servername, "_TIMEOUT");
      && (own in env ==> timeout == ParseInt(env[own]))
      && (own !in env && "SABACAN_TIMEOUT" in env ==> timeout == ParseInt(env["SABACAN_TIMEOUT"]))
      && (own !in env && "SABACAN_TIMEOUT" !in env ==> timeout == default)
  {
    var own := ServiceVar(servername, "_TIMEOUT");
    var raw :=
      if own in env then FromEnv(env[own])
      else if "SABACAN_TIMEOUT" in env then FromEnv(env["SABACAN_TIMEOUT"])
      else if default.Some? then FromDefault(default.value)
      else Absent;
    match raw
    case FromEnv(text) => ParseInt(text)
    case FromDefault(n) => Some(n)
    case Absent => None
  }

  /** An unparsable per-service timeout yields no timeout even when the
      shared variable holds a good one. */
  lemma BadServiceTimeoutShadows(env: Env, servername: string, default: Option<int>, n: int)
    requires ServiceVar(servername, "_TIMEOUT") in env
    requires !IsIntLiteral(env[ServiceVar(servername, "_TIMEOUT")])
    ensures GetTimeout(env["SABACAN_TIMEOUT" := IntToString(n)], servername, default) == None
  {
    ServiceVarIsNotShared(servername);
  }

  // ---------------------------------------------------------------------------
  // SetEnvAction

  /** An option value as argparse hands it to an action: text, or an
      integer when the option was declared with `type=int`. */
  datatype ArgValue = StrValue(s: string) | IntValue(n: int)

  /** `SetEnvAction.__call__` as written: `os.environ[dest] = values`,
      where `None` stands for the `TypeError` that `os.environ` raises for a
      value that is not a string. */
  function StoreAsWritten(env: Env, dest: string, value: ArgValue): (r: Option<Env>)
    ensures r.None? <==> value.IntValue?
    ensures r.Some? ==> dest in r.value && r.value[dest] == value.s && r.value.Keys == env.Keys + {dest}
  {
    match value
    case StrValue(s) => Some(env[dest := s])
    case IntValue(_) => None
  }

  /** The `--timeout` option is declared with `type=int` and stored through
      the action, so as written every use of it raises. */
  lemma TimeoutOptionRaisesAsWritten(env: Env, n: int)
    ensures StoreAsWritten(env, "SABACAN_TIMEOUT", IntValue(n)).None?
  {
  }

  /** The text an option value takes in the environment: `str(values)`. */
  function EnvText(value: ArgValue): (text: string)
    ensures value.StrValue? ==> text == value.s
    ensures value.IntValue? ==> ParseInt(text) == Some(value.n)
  {
    match value
    case StrValue(s) => s
    case IntValue(n) => ParseIntOfIntToString(n); IntToString(n)
  }

  /** `SetEnvAction.__call__` with the value converted to text: `dest` is
      set, every other variable is left as it was. */
  function Store(env: Env, dest: string, value: ArgValue): (r: Env)
    ensures dest in r && r[dest] == EnvText(value)
    ensures forall k :: k != dest ==> (k in r <==> k in env) && (k in env ==> r[k] == env[k])
  {
    env[dest := EnvText(value)]
  }

  /** On text values, which is every value the `--url` option produces, the
      corrected action stores exactly what the written one does. */
  lemma StoreAgreesOnText(env: Env, dest: string, s: string)
    ensures StoreAsWritten(env, dest, StrValue(s)) == Some(Store(env, dest, StrValue(s)))
  {
  }

  /** With the corrected action, `--timeout N` reaches `get_timeout` as N
      for every service that has no timeout variable of its own. */
  lemma TimeoutOptionReachesLookup(env: Env, servername: string, default: Option<int>, n: int)
    requires ServiceVar(servername, "_TIMEOUT") !in env
    ensures GetTimeout(Store(env, "SABACAN_TIMEOUT", IntValue(n)), servername, default) == Some(n)
  {
    ServiceVarIsNotShared(servername);
  }

  /** Likewise `--url U` reaches `get_server_url` as U. */
  lemma UrlOptionReachesLookup(env: Env, servername: string, default: Option<string>, u: string)
    requires ServiceVar(servername, "_URL") !in env
    ensures GetServerUrl(Store(env, "SABACAN_URL", StrValue(u)), servername, default) == Some(u)
  {
    ServiceVarIsNotShared(servername);
  }

  /** The process environment, which the action updates in place. */
  class Environment {
    var vars: Env

    constructor (initial: Env)
      ensures vars == initial
    {
      vars := initial;
    }

    /** `SetEnvAction.__call__` (corrected): store the option's value
        under its destination. */
    method SetEnv(dest: string, value: ArgValue)
      modifies this
      ensures vars == Store(old(vars), dest, value)
      ensures vars[dest] == EnvText(value)
    {
      vars := vars[dest := EnvText(value)];
    }
  }

  // ---------------------------------------------------------------------------
  // NotSupportedAction, NotSupportedFlagAction

  /** The `nargs` an argparse action is built with. */
  datatype Nargs = Unspecified | Count(n: nat) | Pattern(p: string)

  /** What the unsupported-option actions hand to `argparse.Action`; the
      remaining constructor arguments pass through unchanged. */
  datatype ActionSpec = ActionSpec(nargs: Nargs, help: string)

  /** The help text of an unsupported option: 'NOT SUPPORTED' alone, or
      appended in parentheses to the option's own help. */
  function NotSupportedHelp(help: Option<string>): (text: string)
    ensures help.None? ==> text == "NOT SUPPORTED"
    ensures help.Some? ==> StartsWith(text, help.value) && text[|help.value|..] == " (NOT SUPPORTED)"
  {
    if help.None? then "NOT SUPPORTED"
    else
      var text := help.value + " (NOT SUPPORTED)";
      assert text[..|help.value|] == help.value;
      assert text[|help.value|..] == " (NOT SUPPORTED)";
      text
  }

  /** `NotSupportedAction.__init__` */
  function NotSupportedAction(nargs: Nargs, help: Option<string>): (spec: ActionSpec)
    ensures spec.nargs == nargs
    ensures spec.help == NotSupportedHelp(help)
  {
    ActionSpec(nargs, NotSupportedHelp(help))
  }

  /** `NotSupportedFlagAction.__init__`: as above, but the option takes no
      argument whatever `nargs` was asked for. */
  function NotSupportedFlagAction(nargs: Nargs, help: Option<string>): (spec: ActionSpec)
    ensures spec.nargs == Count(0)
    ensures spec.help == NotSupportedAction(nargs, help).help
  {
    NotSupportedAction(Count(0), help)
  }
}

=== FILE: wrappers.dfy ===
/** Failure-carrying datatypes shared by the model: `Option` stands for a
    Python value that may be `None`, `Result` for a call that may raise. */
module Wrappers {

  datatype Option<+T> = None | Some(value: T)

  datatype Result<+R, +E> = Success(value: R) | Failure(error: E)
}
